=== FILE: README.md ===
# Dungeon Escape in Dafny

A model of the text adventure in `Escape_dungeon.py`. The player starts in the
Dungeon Cell of a fixed world of rooms and issues one command per turn:
`look`, `take`, `move`, `use`, `inventory`/`i`, `help`/`h` or `quit`/`q`.
Each room has a description, exits in display order, the items lying there
and at most one obstacle (locked door, guard, pit, chest or gate) that a
specific item clears. The goal is to reach the Exit Gate.

The state is a value `Game(world, player)`. The world is a `map<string, Room>`.
The player has a name, a location and a bounded inventory (`seq<string>`,
capacity 4). Every action is a pure function from a state and the player's
typed answers to a new state and an `Outcome`. The answers are a menu
`Reply` (`Number(n)` or `NotANumber`, the case where Python's `int()`
fails), the y/n answer as a `bool`, and the command word.

Modules, one per file:

- `Wrappers` (`wrappers.dfy`): `Option`.
- `Lists` (`lists.dfy`): Python's `list.remove` (first occurrence only) and
  subscription, where negative indices count from the end.
- `Players` (`players.dfy`): the player and `add_item`/`has_item`/`remove_item`.
- `Dungeon` (`dungeon.dfy`): rooms, obstacles and exits; `CreateWorld`; the
  layout predicates; the movement-blocking rule.
- `Actions` (`actions.dfy`): `take`, `look` (the Treasury guard), the
  strongbox, `use`, and `move` (exit selection, then execution).
- `Loop` (`loop.dfy`): command parsing, one turn with the victory check, a
  scripted run of turns, and the proof that the game as built cannot be won.
- `Scenarios` (`scenarios.dfy`): whole turns in the situations the world sets up.

Properties proved:

- The inventory never exceeds its capacity.
- `take` moves exactly one item from the room to the end of the bag, or
  changes nothing.
- Descriptions and exits are never changed. An action changes only the room
  the player is in.
- A move is blocked iff an obstacle guards that direction or guards no
  direction.
- A blocked move never changes the location.
- Only the required item clears an obstacle. Of the items that clear an
  obstacle this way, only the Cell Key and the Iron Key are used up.
- The Armory strongbox is the one special case: it yields a Cell Key and an
  Iron Key, and opening it breaks the Crowbar.
- Every obstacle of the world as built asks for an item that lies in some
  room or comes out of the strongbox.

### Behaviour of the code worth knowing

- `create_world` builds 13 rooms (Escape_dungeon.py:107-186).
  `Dungeon.CreateWorldIntegrity` proves the count.
- The game promises "Find a way to escape through the exit gate!"
  (Escape_dungeon.py:402), but as written it cannot be won. The cell door
  needs the Cell Key. The only Cell Key comes out of the Armory strongbox,
  which lies behind that door. The Crowbar, the only item the player can
  reach, opens nothing in the cell. `Loop.NeverLeavesTheCell` proves that no
  sequence of inputs ever takes the player out of the Dungeon Cell. The
  scenario lemmas are stated for any state whose rooms have the relevant
  shape.
- A blocked move whose follow-up use clears the obstacle leaves the player
  where they were. The player has to move again (Escape_dungeon.py:325-329).
  See `Scenarios.CellDoorScenario` and `Scenarios.OpenCellDoorScenario`.
- `take` removes one occurrence of the item from the room, the first one
  (Escape_dungeon.py:264). See `Actions.TakeCutsFirstOccurrence`.
- In `take` and `use`, the list is indexed with `choice - 1` and no range
  check. So a choice from `-n+1` to `-1` selects from the end of the list
  (Escape_dungeon.py:262, 361). `move` does check the range.
- An obstacle with no direction (the Armory chest, the Treasury guard) blocks
  every move out of its room (Escape_dungeon.py:325).
- The docstring of `add_item` says it returns False when the bag is full
  (Escape_dungeon.py:73-74), but the code raises `InventoryFullError`
  (Escape_dungeon.py:82). `Players.AddItem` follows the code: a full bag is
  the `None` result, which the callers report as `InventoryFull`.

## Model

| member | source | states |
|---|---|---|
| `Lists.FirstIndex` | Escape_dungeon.py:91 | the index found holds the item and no earlier index does |
| `Lists.RemoveFirst` | Escape_dungeon.py:88-93 | removing an absent item changes nothing; removing a present one shortens the list by one and takes exactly one copy out of its multiset |
| `Lists.RemoveFirstCutsFirstOccurrence` | Escape_dungeon.py:91 | removal cuts out exactly the first occurrence and keeps the order of the rest |
| `Lists.PyIndex` | Escape_dungeon.py:262 | subscription is defined exactly for `-n <= k < n` (otherwise IndexError) and yields an element of the list |
| `Lists.PyIndexFromEnd` | Escape_dungeon.py:361 | `s[-j]` is the j-th element from the end, the same as `s[n - j]` |
| `Players.NewPlayer` | Escape_dungeon.py:53-64 | a new player carries the given name, stands in the Dungeon Cell, holds nothing and has capacity 4 |
| `Players.HasItem` | Escape_dungeon.py:84-86 | defines `has_item` as membership in the inventory; its meaning for removal is stated by `Players.RemoveItem` |
| `Players.AddItem` | Escape_dungeon.py:79-82 | succeeds iff the bag is below capacity; then the item is appended at the end, nothing else changes, and the bag stays within capacity; otherwise InventoryFullError |
| `Players.RemoveItem` | Escape_dungeon.py:88-93 | returns true iff the item is carried; then exactly the first occurrence is removed; otherwise the player is unchanged |
| `Dungeon.Blocks` | Escape_dungeon.py:324-325 | defines the blocking rule: there is an obstacle and it guards the chosen direction or no direction; `Actions.ExecuteMove` states that a move is blocked exactly then |
| `Dungeon.ExitTarget` | Escape_dungeon.py:331 | the dictionary lookup of a direction succeeds iff some exit has that label, and the exit found is one of the room's exits |
| `Dungeon.ExitTargetAt` | Escape_dungeon.py:288-306 | with distinct labels, the direction shown at position i leads to that exit's target |
| `Dungeon.CreateWorld` | Escape_dungeon.py:105-186 | the fixed world, with the start room and the Exit Gate among its rooms; its other properties are the lemmas below |
| `Dungeon.CreateWorldRooms` | Escape_dungeon.py:107-186 | the world has exactly the thirteen named rooms |
| `Dungeon.CreateWorldCount` | Escape_dungeon.py:107-186 | the world has 13 rooms |
| `Dungeon.CreateWorldClosed` | Escape_dungeon.py:110-183 | every exit target is a room of the world |
| `Dungeon.CreateWorldDistinctDirections` | Escape_dungeon.py:110-183 | no room repeats a direction label |
| `Dungeon.CreateWorldWellFormed` | Escape_dungeon.py:107-186 | the world is closed and has distinct labels |
| `Dungeon.CreateWorldIntegrity` | Escape_dungeon.py:105-186 | 13 rooms, the start and exit rooms among them, closed, distinct labels |
| `Dungeon.CreateWorldCellFacts` | Escape_dungeon.py:108-112 | the cell's only exit is the locked door needing the Cell Key; no room holds a Cell Key; only the Armory chest needs the Crowbar |
| `Dungeon.CreateWorldItemsKnown` | Escape_dungeon.py:108-183 | every item lying in a room is one of the game's known items |
| `Dungeon.CreateWorldRequiredItemsExist` | Escape_dungeon.py:108-183 | every obstacle's required item lies in some room or is one of the two keys the strongbox yields (Escape_dungeon.py:202-203) |
| `Actions.Pick` | Escape_dungeon.py:257-262 | a menu answer selects iff it is a non-zero number in `-n+1..n`; positive answers count from the front, negative ones from the back |
| `Actions.HandleTake` | Escape_dungeon.py:246-273 | empty room, 0, or an invalid choice change nothing; a full bag reports InventoryFull with room and bag unchanged; otherwise the picked item is appended to the bag and one copy leaves the room; items are conserved between room and bag; no other room and no exit changes |
| `Actions.TakeCutsFirstOccurrence` | Escape_dungeon.py:262-264 | a successful take removes the first occurrence of the picked item from the room and keeps the order of the rest |
| `Actions.GemCharmsGuard` | Escape_dungeon.py:219 | defines when the Treasury guard reacts: the player is in the Treasury and carries the Gem |
| `Actions.HandleLook` | Escape_dungeon.py:211-222 | looking in the Treasury with the Gem clears the Treasury obstacle; otherwise nothing changes |
| `Actions.StrongboxOpens` | Escape_dungeon.py:198-200 | defines when the strongbox opens: in the Armory, using the Crowbar, while the obstacle is a chest |
| `Actions.OpenStrongbox` | Escape_dungeon.py:196-208 | fires iff in the Armory with the Crowbar while the obstacle is a chest; then Cell Key and Iron Key are added after the room's items, the obstacle is cleared, and the first Crowbar is cut out of the bag with the rest kept in order; otherwise nothing changes |
| `Actions.Resolves` | Escape_dungeon.py:374 | defines a match: the current room has an obstacle whose required item is the one used |
| `Actions.Consumable` | Escape_dungeon.py:390-391 | defines the items used up by clearing an obstacle: the Cell Key and the Iron Key |
| `Actions.Hinted` | Escape_dungeon.py:343-348 | defines Python's truthiness of the hint: present and not the empty string; `Actions.HandleUse` states both cases |
| `Actions.ApplyItem` | Escape_dungeon.py:366-394 | the strongbox case comes first; otherwise the obstacle is cleared iff the item is its required item, the bag changes iff the item is a key held by the player, in which case its first occurrence is cut out with the rest kept in order; a mismatch changes nothing |
| `Actions.HandleUse` | Escape_dungeon.py:336-364 | an empty bag or a hint the player lacks changes nothing; a held hint is applied directly; otherwise 0 cancels, an invalid choice changes nothing, and a valid pick applies that item; any item applied is one the player carries; location and layout never change |
| `Actions.ExecuteMove` | Escape_dungeon.py:313-333 | blocked iff an obstacle guards the direction or no direction; a blocked move keeps the location and either changes nothing or runs the use with the required item as hint; an unblocked move goes to the exit's target and changes nothing else |
| `Actions.HandleMove` | Escape_dungeon.py:276-310 | no exits, 0, or an out-of-range or non-numeric choice change nothing (the last two are InvalidCommand); a valid choice executes the move for that exit; the player only ever arrives through an unblocked exit of the room |
| `Loop.ParseCommand` | Escape_dungeon.py:414-430 | a word names a command iff it is one of that command's words; any other word is unknown |
| `Loop.Initial` | Escape_dungeon.py:405-407 | the game starts with the built world and a new player of the given name, in the cell with an empty bag of capacity 4 |
| `Loop.InitialValid` | Escape_dungeon.py:53-64 | a new game starts in the Dungeon Cell with an empty bag of capacity 4 in a well-formed world |
| `Loop.LayoutKeepsWellFormed` | Escape_dungeon.py:105-186 | a world with the same rooms and exits keeps the integrity of the original |
| `Loop.Dispatch` | Escape_dungeon.py:412-430 | look, take, move and use run exactly their handlers (use with no hint); inventory, help, quit and unknown words change nothing; an unknown word is InvalidCommand; an error leaves the state unchanged; only `move` changes the location, and only through an unblocked exit |
| `Loop.Turn` | Escape_dungeon.py:409-438 | every command other than quit runs the dispatched action; the invariant (located, well-formed world, bag within capacity) is kept; quit ends the game; an error skips the victory check; victory iff the player then stands in the Exit Gate |
| `Loop.Play` | Escape_dungeon.py:409-438 | an empty script plays nothing; a one-input script plays exactly that turn and returns its state and status; a quit result means some input was `quit`; over any run the invariant holds and descriptions and exits stay as they were, and an escape always ends in the Exit Gate |
| `Loop.PlayAppend` | Escape_dungeon.py:409-438 | turns are played in order: a run over `s + s'` continues with `s'` from where `s` left off while the game is still on, and ignores `s'` once `s` has quit (:426) or escaped (:435) |
| `Loop.InitialConfined` | Escape_dungeon.py:108-112 | the initial state is confined: in the cell, door locked, only Crowbars around |
| `Loop.TakeKeepsConfined` | Escape_dungeon.py:246-273 | taking in the cell only ever moves a Crowbar |
| `Loop.UseKeepsConfined` | Escape_dungeon.py:336-394 | using the Crowbar in the cell, or asking for a Cell Key, opens nothing |
| `Loop.MoveKeepsConfined` | Escape_dungeon.py:313-333 | every move from the cell is blocked by the door |
| `Loop.TurnKeepsConfined` | Escape_dungeon.py:409-438 | no single turn releases a confined player or wins |
| `Loop.PlayKeepsConfined` | Escape_dungeon.py:409-438 | no run of turns releases a confined player or wins |
| `Loop.NeverLeavesTheCell` | Escape_dungeon.py:108-112 | from the start of the game, no input ever gets the player out of the Dungeon Cell or wins |
| `Scenarios.CreateWorldArmory` | Escape_dungeon.py:138-173 | the Armory starts empty with the shut strongbox; the Treasury guard blocks no particular direction |
| `Scenarios.StrongboxScenario` | Escape_dungeon.py:196-208 | using the Crowbar (second of Torch, Crowbar) on the strongbox adds both keys, clears it and leaves only the Torch |
| `Scenarios.RoomWideObstacleBlocksEveryExit` | Escape_dungeon.py:324-329 | with a direction-less obstacle every exit choice is blocked and the location stays |
| `Scenarios.CellDoorScenario` | Escape_dungeon.py:324-329 | the Cell Key used after a blocked move opens the door and is used up, but the player stays in the cell |
| `Scenarios.OpenCellDoorScenario` | Escape_dungeon.py:331-333 | once the door is open, moving forward reaches the Corridor |

## Left out

- Console output: `print_header`, `show_inventory`, and the flavour text for
  looking, taking the Book or Note, and clearing obstacles. It has no effect
  on the state. Each outcome names the message instead.
- The narration for the Library and Study in `handle_special_interactions`
  (Escape_dungeon.py:213-217). It only prints.
- Prompting and `.lower()`. The command word is taken as already lower-cased,
  and the y/n answer as a `bool` that is true for "y". Parsing is reduced to
  `Reply`: `NotANumber` stands for any text `int()` rejects.
- The player's name prompt. The name is a parameter and is only carried.
- The `KeyboardInterrupt` and generic `Exception` handlers around the loop
  (Escape_dungeon.py:440-443). They are process termination.
- The exception classes (Escape_dungeon.py:5-15). They become `Outcome`
  values; `InventoryFull` and `InvalidCommand` are the ones the loop reports.
- The unused `GameCommands` enum and `Obstacle` dataclass
  (Escape_dungeon.py:17-41). Obstacle types are a closed datatype rather than
  strings.
- A player location that is not a room of the world. The source would fail
  with a `KeyError`. Every action requires the location to be a room, and the
  loop invariant proves it always is.
- A negative `max_inventory`. Capacity is a `nat`; the source only ever uses 4.
- The unbounded `while True` loop. `Loop.Play` runs any finite script of turns.

=== FILE: actions.dfy ===
/** The player's actions. Each takes the game state and the answers the
    player would type, and returns the new state with an outcome. Printing is
    not modelled; each outcome names the message the player would read. */
module Actions {
  import opened Wrappers
  import opened Lists
  import opened Players
  import opened Dungeon

  datatype Game = Game(world: World, player: Player)

  /** An answer to a numbered menu: an integer, or text `int()` rejects. */
  datatype Reply = Number(n: int) | NotANumber

  datatype Outcome =
    | Done                          // looked, took, moved, or displayed something
    | NothingThere                  // no items to take, no exits, or an empty bag
    | Cancelled                     // the player answered 0
    | InvalidChoice                 // "Invalid choice.": not a number, or IndexError
    | Lacking(item: string)         // the item a blocked move needs is not in the bag
    | Blocked(attempt: Option<Outcome>)  // the move was blocked; what the follow-up use did
    | NoEffect                      // "nothing happened"
    | ChestOpened                   // the strongbox was pried open
    | Cleared                       // an obstacle was removed
    | InventoryFull                 // InventoryFullError reaches the game loop
    | InvalidCommand                // InvalidCommandError reaches the game loop

  /** The outcomes that the game loop receives as a raised `GameError`. */
  predicate IsError(o: Outcome)
  {
    o == InventoryFull || o == InvalidCommand
  }

  /** The player stands in a room of the world. */
  predicate Located(g: Game)
  {
    g.player.location in g.world
  }

  function Here(g: Game): Room
    requires Located(g)
  {
    g.world[g.player.location]
  }

  /** Everything an action may change: the inventory, and the items and
      obstacle of the room the player is in. The player's name, capacity and
      location stay, and so does every other room and every exit and
      description. */
  ghost predicate LocalChange(g: Game, g': Game)
    requires Located(g)
  {
    && g'.player.(inventory := g.player.inventory) == g.player
    && SameLayout(g.world, g'.world)
    && OthersUnchanged(g.world, g'.world, g.player.location)
  }

  /** The entry a numbered menu answer selects from `s`. The list is
      subscripted with `choice - 1` and no range check, so 1..|s| count from
      the front and -|s|+1..-1 from the back; 0 (cancel), any other number
      (IndexError) and a non-number select nothing. */
  function Pick(s: seq<string>, reply: Reply): (r: Option<string>)
    ensures r.Some? <==> reply.Number? && reply.n != 0 && -|s| < reply.n <= |s|
    ensures r.Some? ==> r.value in s
    ensures r.Some? && reply.n > 0 ==> r.value == s[reply.n - 1]
    ensures r.Some? && reply.n < 0 ==> r.value == s[|s| + reply.n - 1]
  {
    match reply
    case NotANumber => None
    case Number(c) => if c == 0 then None else PyIndex(s, c - 1)
  }

  /** take: pick an item from the current room's list and move it into the bag. */
  function HandleTake(g: Game, reply: Reply): (r: (Game, Outcome))
    requires Located(g)
    ensures LocalChange(g, r.0)
    ensures r.0.player.location == g.player.location
    ensures WithinCapacity(g.player) ==> WithinCapacity(r.0.player)
    ensures r.1 in {Done, NothingThere, Cancelled, InvalidChoice, InventoryFull}
    ensures r.1 != Done ==> r.0 == g
    ensures r.1 == NothingThere <==> |Here(g).items| == 0
    ensures r.1 == Cancelled <==> |Here(g).items| > 0 && reply == Number(0)
    ensures r.1 == InvalidChoice <==>
              |Here(g).items| > 0 && reply != Number(0) && Pick(Here(g).items, reply).None?
    ensures r.1 == InventoryFull <==>
              Pick(Here(g).items, reply).Some? && |g.player.inventory| >= g.player.maxInventory
    ensures r.1 == Done <==>
              Pick(Here(g).items, reply).Some? && |g.player.inventory| < g.player.maxInventory
    ensures r.1 == Done ==>
              var item := Pick(Here(g).items, reply).value;
              && r.0.player.inventory == g.player.inventory + [item]
              && |Here(r.0).items| == |Here(g).items| - 1
              && multiset(Here(r.0).items) == multiset(Here(g).items) - multiset{item}
              && Here(r.0).obstacle == Here(g).obstacle
    ensures multiset(Here(r.0).items) + multiset(r.0.player.inventory)
            == multiset(Here(g).items) + multiset(g.player.inventory)
  {
    var room := Here(g);
    if |room.items| == 0 then (g, NothingThere)
    else if reply == Number(0) then (g, Cancelled)
    else match Pick(room.items, reply)
      case None => (g, InvalidChoice)
      case Some(item) =>
        match AddItem(g.player, item)
        case None => (g, InventoryFull)
        case Some(p) =>
          assert p.inventory == g.player.inventory + [item];
          var w := g.world[g.player.location := room.(items := RemoveFirst(room.items, item))];
          (Game(w, p), Done)
  }

  /** A successful take cuts the first occurrence of the picked item out of
      the room's list and keeps the order of the rest. */
  lemma TakeCutsFirstOccurrence(g: Game, reply: Reply)
    requires Located(g)
    requires HandleTake(g, reply).1 == Done
    ensures var item := Pick(Here(g).items, reply).value;
            var i := FirstIndex(Here(g).items, item);
            Here(HandleTake(g, reply).0).items == Here(g).items[..i] + Here(g).items[i + 1..]
  {
    RemoveFirstCutsFirstOccurrence(Here(g).items, Pick(Here(g).items, reply).value);
  }

  /** The Treasury guard is charmed when the player looks around there
      carrying the Gem. */
  predicate GemCharmsGuard(g: Game)
  {
    g.player.location == TreasuryRoom && HasItem(g.player, Gem)
  }

  /** look: only the Treasury guard reacts; everything else is narration. */
  function HandleLook(g: Game): (r: Game)
    requires Located(g)
    ensures r.player == g.player
    ensures LocalChange(g, r)
    ensures Here(r).items == Here(g).items
    ensures GemCharmsGuard(g) ==> Here(r).obstacle.None?
    ensures !GemCharmsGuard(g) ==> r == g
  {
    if GemCharmsGuard(g) then
      g.(world := g.world[TreasuryRoom := g.world[TreasuryRoom].(obstacle := None)])
    else
      g
  }

  /** The strongbox opens for the Crowbar, in the Armory, while its obstacle
      is still a chest. */
  predicate StrongboxOpens(g: Game, item: string)
    requires Located(g)
  {
    && g.player.location == ArmoryRoom
    && item == Crowbar
    && Here(g).obstacle.Some?
    && Here(g).obstacle.value.kind == Chest
  }

  /** The strongbox special case: the chest yields a Cell Key and an Iron Key,
      disappears, and the Crowbar breaks. */
  function OpenStrongbox(g: Game, item: string): (r: (bool, Game))
    requires Located(g)
    ensures r.0 <==> StrongboxOpens(g, item)
    ensures !r.0 ==> r.1 == g
    ensures LocalChange(g, r.1)
    ensures r.0 ==> && Here(r.1).items == Here(g).items + [CellKey, IronKey]
                    && Here(r.1).obstacle.None?
    ensures r.0 && HasItem(g.player, Crowbar) ==>
              multiset(r.1.player.inventory) == multiset(g.player.inventory) - multiset{Crowbar}
              && |r.1.player.inventory| == |g.player.inventory| - 1
    ensures r.0 && HasItem(g.player, Crowbar) ==>
              var i := FirstIndex(g.player.inventory, Crowbar);
              r.1.player.inventory == g.player.inventory[..i] + g.player.inventory[i + 1..]
    ensures r.0 && !HasItem(g.player, Crowbar) ==> r.1.player == g.player
  {
    if StrongboxOpens(g, item) then
      var room := Here(g);
      var w := g.world[ArmoryRoom := room.(items := room.items + [CellKey, IronKey], obstacle := None)];
      (true, Game(w, RemoveItem(g.player, Crowbar).1))
    else
      (false, g)
  }

  /** Keys are used up when they open something; every other item is kept. */
  predicate Consumable(item: string)
  {
    item == CellKey || item == IronKey
  }

  /** The obstacle of the current room is the one `item` resolves. */
  predicate Resolves(g: Game, item: string)
    requires Located(g)
  {
    Here(g).obstacle.Some? && Here(g).obstacle.value.requiredItem == item
  }

  /** Using a chosen item: the strongbox first, then the room's obstacle. */
  function ApplyItem(g: Game, item: string): (r: (Game, Outcome))
    requires Located(g)
    ensures LocalChange(g, r.0)
    ensures |r.0.player.inventory| <= |g.player.inventory|
    ensures r.1 in {ChestOpened, Cleared, NoEffect}
    ensures r.1 == ChestOpened <==> StrongboxOpens(g, item)
    ensures r.1 == ChestOpened ==> r.0 == OpenStrongbox(g, item).1
    ensures r.1 == Cleared <==> !StrongboxOpens(g, item) && Resolves(g, item)
    ensures r.1 == NoEffect ==> r.0 == g
    ensures r.1 == Cleared ==> Here(r.0).obstacle.None? && Here(r.0).items == Here(g).items
    ensures r.1 == Cleared ==>
              (r.0.player.inventory != g.player.inventory <==> Consumable(item) && HasItem(g.player, item))
    ensures r.1 == Cleared && Consumable(item) && HasItem(g.player, item) ==>
              multiset(r.0.player.inventory) == multiset(g.player.inventory) - multiset{item}
    ensures r.1 == Cleared && Consumable(item) && HasItem(g.player, item) ==>
              var i := FirstIndex(g.player.inventory, item);
              r.0.player.inventory == g.player.inventory[..i] + g.player.inventory[i + 1..]
  {
    var box := OpenStrongbox(g, item);
    if box.0 then (box.1, ChestOpened)
    else if Resolves(g, item) then
      var room := Here(g);
      var w := g.world[g.player.location := room.(obstacle := None)];
      var p := if Consumable(item) then RemoveItem(g.player, item).1 else g.player;
      (Game(w, p), Cleared)
    else
      (g, NoEffect)
  }

  /** Python truthiness of the item a blocked move passes along: `None` and
      the empty string both mean "no hint". */
  predicate Hinted(hint: Option<string>)
  {
    hint.Some? && hint.value != ""
  }

  /** use: apply the hinted item if the player has it, otherwise the one
      picked from the inventory menu. */
  function HandleUse(g: Game, hint: Option<string>, reply: Reply): (r: (Game, Outcome))
    requires Located(g)
    ensures LocalChange(g, r.0)
    ensures |r.0.player.inventory| <= |g.player.inventory|
    ensures || r.1.NothingThere? || r.1.Lacking? || r.1.Cancelled? || r.1.InvalidChoice?
            || r.1.ChestOpened? || r.1.Cleared? || r.1.NoEffect?
    ensures !(r.1 in {ChestOpened, Cleared}) ==> r.0 == g
    ensures r.1 == NothingThere <==> |g.player.inventory| == 0
    ensures r.1.Lacking? <==>
              |g.player.inventory| > 0 && Hinted(hint) && !HasItem(g.player, hint.value)
    ensures r.1.Lacking? ==> r.1.item == hint.value
    ensures r.1 == Cancelled <==> |g.player.inventory| > 0 && !Hinted(hint) && reply == Number(0)
    ensures r.1 == InvalidChoice <==>
              |g.player.inventory| > 0 && !Hinted(hint) && reply != Number(0)
              && Pick(g.player.inventory, reply).None?
    ensures |g.player.inventory| > 0 && Hinted(hint) && HasItem(g.player, hint.value) ==>
              r == ApplyItem(g, hint.value)
    ensures |g.player.inventory| > 0 && !Hinted(hint) && Pick(g.player.inventory, reply).Some? ==>
              r == ApplyItem(g, Pick(g.player.inventory, reply).value)
    ensures r.1 in {ChestOpened, Cleared, NoEffect} ==>
              exists item :: item in g.player.inventory && r == ApplyItem(g, item)
  {
    var inv := g.player.inventory;
    if |inv| == 0 then (g, NothingThere)
    else if Hinted(hint) && !HasItem(g.player, hint.value) then (g, Lacking(hint.value))
    else if Hinted(hint) then ApplyItem(g, hint.value)
    else if reply == Number(0) then (g, Cancelled)
    else match Pick(inv, reply)
      case None => (g, InvalidChoice)
      case Some(item) => ApplyItem(g, item)
  }

  /** Movement once a direction is chosen: a blocked move never changes the
      location, even when the follow-up use clears the obstacle. */
  function ExecuteMove(g: Game, d: string, confirm: bool, followUp: Reply): (r: (Game, Outcome))
    requires Located(g)
    requires ExitTarget(Here(g).exits, d).Some?
    ensures r.1.Blocked? <==> Blocks(Here(g).obstacle, d)
    ensures r.1.Blocked? ==> r.0.player.location == g.player.location && LocalChange(g, r.0)
    ensures r.1.Blocked? && !confirm ==> r == (g, Blocked(None))
    ensures r.1.Blocked? && confirm ==>
              && r.1.attempt.Some?
              && (r.0, r.1.attempt.value) == HandleUse(g, Some(Here(g).obstacle.value.requiredItem), followUp)
    ensures !r.1.Blocked? ==>
              && r.1 == Done
              && r.0.world == g.world
              && r.0.player == g.player.(location := r.0.player.location)
              && Exit(d, r.0.player.location) in Here(g).exits
  {
    var room := Here(g);
    if Blocks(room.obstacle, d) then
      if confirm then
        var used := HandleUse(g, Some(room.obstacle.value.requiredItem), followUp);
        (used.0, Blocked(Some(used.1)))
      else
        (g, Blocked(None))
    else
      (g.(player := g.player.(location := ExitTarget(room.exits, d).value)), Done)
  }

  /** move: choose an exit from the numbered list (range-checked), then go. */
  function HandleMove(g: Game, reply: Reply, confirm: bool, followUp: Reply): (r: (Game, Outcome))
    requires Located(g)
    ensures SameLayout(g.world, r.0.world)
    ensures OthersUnchanged(g.world, r.0.world, g.player.location)
    ensures r.0.player.(location := g.player.location, inventory := g.player.inventory) == g.player
    ensures |r.0.player.inventory| <= |g.player.inventory|
    ensures r.1 == NothingThere <==> |Here(g).exits| == 0
    ensures r.1 == Cancelled <==> |Here(g).exits| > 0 && reply == Number(0)
    ensures r.1 == InvalidCommand <==>
              |Here(g).exits| > 0 && !(reply.Number? && 0 <= reply.n <= |Here(g).exits|)
    ensures r.1 in {NothingThere, Cancelled, InvalidCommand} ==> r.0 == g
    ensures |Here(g).exits| > 0 && reply.Number? && 1 <= reply.n <= |Here(g).exits| ==>
              r == ExecuteMove(g, Here(g).exits[reply.n - 1].direction, confirm, followUp)
    ensures r.0.player.location != g.player.location ==>
              && r.0.world == g.world && r.0.player.inventory == g.player.inventory
              && exists i :: 0 <= i < |Here(g).exits|
                             && Here(g).exits[i].target == r.0.player.location
                             && !Blocks(Here(g).obstacle, Here(g).exits[i].direction)
    ensures DistinctDirections(Here(g).exits) && reply.Number? && 1 <= reply.n <= |Here(g).exits|
            && !Blocks(Here(g).obstacle, Here(g).exits[reply.n - 1].direction) ==>
              r.0.player.location == Here(g).exits[reply.n - 1].target
  {
    var exits := Here(g).exits;
    if |exits| == 0 then (g, NothingThere)
    else match reply
      case NotANumber => (g, InvalidCommand)
      case Number(c) =>
        if c == 0 then (g, Cancelled)
        else if !(0 <= c - 1 < |exits|) then (g, InvalidCommand)
        else
          var d := exits[c - 1].direction;
          assert ExitTarget(exits, d).Some?;
          ExitTargetAt(exits, c - 1);
          ExecuteMove(g, d, confirm, followUp)
  }
}

=== FILE: dungeon.dfy ===
/** The world: thirteen rooms keyed by name, each with a description, exits in
    display order, the items lying there and at most one obstacle. Only the
    items and the obstacle of a room ever change during a game. */
module Dungeon {
  import opened Wrappers
  import Players

  datatype ObstacleKind = Locked | Guard | Pit | Chest | Gate

  /** `direction == None` makes the obstacle room-wide: it blocks every exit. */
  datatype Obstacle = Obstacle(
    kind: ObstacleKind,
    requiredItem: string,
    message: string,
    direction: Option<string>)

  datatype Exit = Exit(direction: string, target: string)

  datatype Room = Room(
    description: string,
    exits: seq<Exit>,
    items: seq<string>,
    obstacle: Option<Obstacle>)

  type World = map<string, Room>

  const ArmoryRoom := "Armory"
  const TreasuryRoom := "Treasury"
  const ExitRoom := "Exit Gate"
  const Crowbar := "Crowbar"
  const CellKey := "Cell Key"
  const IronKey := "Iron Key"
  const Gem := "Gem"

  /** The fixed world every game starts from. */
  function CreateWorld(): (w: World)
    ensures Players.StartRoom in w && ExitRoom in w
  {
    map[
      "Dungeon Cell" := Room(
        "You're in a dark stone cell. A rusty bed sits in the corner.",
        [Exit("forward", "Corridor")],
        ["Crowbar"],
        Some(Obstacle(Locked, "Cell Key", "The cell door is locked!", Some("forward")))),
      "Corridor" := Room(
        "A dimly lit corridor stretches before you.",
        [Exit("forward", "Guard Room"), Exit("right", "Storage Room")],
        [],
        None),
      "Guard Room" := Room(
        "A guard snores loudly in a chair. There's a door behind him.",
        [Exit("back", "Corridor"), Exit("forward", "Kitchen")],
        [],
        Some(Obstacle(Guard, "Torch", "The guard blocks your path!", Some("forward")))),
      "Storage Room" := Room(
        "Dusty shelves line the walls. Something glints in the corner.",
        [Exit("back", "Corridor"), Exit("left", "Library")],
        ["Rope"],
        Some(Obstacle(Locked, "Iron Key", "The door to the library is locked!", Some("left")))),
      "Kitchen" := Room(
        "A filthy kitchen with moldy food. A torch burns on the wall.",
        [Exit("back", "Guard Room"), Exit("right", "Armory")],
        ["Torch", "Food"],
        None),
      "Armory" := Room(
        "Weapons rust on racks. A strongbox sits in the center.",
        [Exit("back", "Kitchen"), Exit("north", "Treasury")],
        [],
        Some(Obstacle(Chest, "Crowbar", "The strongbox is jammed shut!", None))),
      "Library" := Room(
        "Ancient books line crumbling shelves. A map peeks from a desk.",
        [Exit("right", "Storage Room"), Exit("forward", "Study")],
        ["Map", "Book"],
        None),
      "Study" := Room(
        "A scholar's study with a desk and chair. A note reveals a secret.",
        [Exit("back", "Library"), Exit("down", "Secret Passage")],
        ["Note"],
        None),
      "Secret Passage" := Room(
        "A narrow hidden passage with strange markings on the wall.",
        [Exit("up", "Study"), Exit("forward", "Torture Chamber")],
        ["Gem"],
        None),
      "Torture Chamber" := Room(
        "A gruesome room with a gaping pit in the floor.",
        [Exit("back", "Secret Passage"), Exit("across", "Courtyard")],
        [],
        Some(Obstacle(Pit, "Rope", "The pit is too wide to jump!", Some("across")))),
      "Treasury" := Room(
        "Glittering treasures line the walls. A suspicious guard stands watch.",
        [Exit("south", "Armory")],
        ["Gold Coin"],
        Some(Obstacle(Guard, "Gem", "A guard blocks access to the treasure!", None))),
      "Courtyard" := Room(
        "Moonlight reveals a massive gate. It's locked.",
        [Exit("forward", "Exit Gate")],
        [],
        Some(Obstacle(Gate, "Cell Key", "The gate is securely locked!", Some("forward")))),
      "Exit Gate" := Room(
        "Freedom awaits beyond this point!",
        [],
        [],
        None)
    ]
  }

  /** Every exit leads to a room of the world. */
  ghost predicate Closed(w: World)
  {
    forall k, e :: k in w && e in w[k].exits ==> e.target in w
  }

  /** No two exits of a room share a direction label (they are dictionary keys). */
  ghost predicate DistinctDirections(exits: seq<Exit>)
  {
    forall i, j :: 0 <= i < j < |exits| ==> exits[i].direction != exits[j].direction
  }

  /** The static part of the world is well formed. */
  ghost predicate WellFormed(w: World)
  {
    && Closed(w)
    && forall k :: k in w ==> DistinctDirections(w[k].exits)
  }

  /** `w'` has the same rooms as `w`, with the same descriptions and exits:
      only items and obstacles may differ. */
  ghost predicate SameLayout(w: World, w': World)
  {
    && w'.Keys == w.Keys
    && forall k :: k in w ==> w'[k].description == w[k].description && w'[k].exits == w[k].exits
  }

  /** Every room other than `k` is exactly as it was. */
  ghost predicate OthersUnchanged(w: World, w': World, k: string)
  {
    forall k' :: k' in w && k' != k ==> k' in w' && w'[k'] == w[k']
  }

  /** The room an exit label leads to, looked up as in a dictionary. */
  function ExitTarget(exits: seq<Exit>, d: string): (r: Option<string>)
    ensures r.Some? <==> exists i :: 0 <= i < |exits| && exits[i].direction == d
    ensures r.Some? ==> Exit(d, r.value) in exits
  {
    if |exits| == 0 then None
    else if exits[0].direction == d then Some(exits[0].target)
    else
      var r := ExitTarget(exits[1..], d);
      assert forall i :: 1 <= i < |exits| ==> exits[i] == exits[1..][i - 1];
      r
  }

  /** With distinct labels the lookup returns the target of the exit shown at
      that position. */
  lemma ExitTargetAt(exits: seq<Exit>, i: int)
    requires 0 <= i < |exits|
    ensures DistinctDirections(exits) ==> ExitTarget(exits, exits[i].direction) == Some(exits[i].target)
  {
  }

  /** A move in direction `d` is blocked iff there is an obstacle and it either
      guards `d` or guards no direction at all. */
  predicate Blocks(obstacle: Option<Obstacle>, d: string)
  {
    obstacle.Some? && (obstacle.value.direction == Some(d) || obstacle.value.direction.None?)
  }

  /** The names of the rooms `CreateWorld` builds. */
  const RoomNames: set<string> := {
    "Dungeon Cell", "Corridor", "Guard Room", "Storage Room", "Kitchen", "Armory", "Library",
    "Study", "Secret Passage", "Torture Chamber", "Treasury", "Courtyard", "Exit Gate"}

  lemma CreateWorldRooms()
    ensures CreateWorld().Keys == RoomNames
  {
  }

  lemma RoomNamesCount()
    ensures |RoomNames| == 13
  {
  }

  lemma MapCardinality<K, V>(m: map<K, V>)
    ensures |m| == |m.Keys|
  {
  }

  /** The world as built has thirteen rooms, the start and exit rooms among
      them, every exit leading to one of them and no duplicated direction
      label in any room. */
  lemma CreateWorldIntegrity()
    ensures |CreateWorld()| == 13
    ensures Players.StartRoom in CreateWorld() && ExitRoom in CreateWorld()
    ensures WellFormed(CreateWorld())
  {
    CreateWorldCount();
    CreateWorldWellFormed();
  }

  lemma CreateWorldCount()
    ensures |CreateWorld()| == 13
  {
    CreateWorldRooms();
    RoomNamesCount();
    MapCardinality(CreateWorld());
  }

  lemma CreateWorldWellFormed()
    ensures WellFormed(CreateWorld())
  {
    CreateWorldClosed();
    CreateWorldDistinctDirections();
  }

  lemma CreateWorldClosed()
    ensures Closed(CreateWorld())
  {
  }

  lemma CreateWorldDistinctDirections()
    ensures forall k :: k in CreateWorld() ==> DistinctDirections(CreateWorld()[k].exits)
  {
  }

  /** The facts behind the locked cell: its only exit is the locked door, the
      Cell Key lies in no room, and the only obstacle a Crowbar clears is the
      Armory strongbox. */
  lemma CreateWorldCellFacts()
    ensures CreateWorld()[Players.StartRoom].exits == [Exit("forward", "Corridor")]
    ensures CreateWorld()[Players.StartRoom].items == [Crowbar]
    ensures CreateWorld()[Players.StartRoom].obstacle
            == Some(Obstacle(Locked, CellKey, "The cell door is locked!", Some("forward")))
    ensures forall k :: k in CreateWorld() ==> CellKey !in CreateWorld()[k].items
    ensures forall k :: k in CreateWorld() && CreateWorld()[k].obstacle.Some?
                        && CreateWorld()[k].obstacle.value.requiredItem == Crowbar
                        ==> k == ArmoryRoom && CreateWorld()[k].obstacle.value.kind == Chest
  {
  }

  /** Every item lying in some room of a world. */
  function WorldItems(w: World): set<string>
  {
    set k, x | k in w && x in w[k].items :: x
  }

  /** The items the game knows: those lying in the rooms at the start plus
      the two keys the Armory strongbox yields. */
  const ItemNames: set<string> := {
    "Crowbar", "Rope", "Torch", "Food", "Map", "Book", "Note", "Gem", "Gold Coin",
    CellKey, IronKey}

  /** Every item lying in a room of the world as built is a known item. */
  lemma CreateWorldItemsKnown()
    ensures forall k, x :: k in CreateWorld() && x in CreateWorld()[k].items ==> x in ItemNames
  {
  }

  /** Every obstacle of the world as built asks for an item that lies in some
      room or comes out of the strongbox. */
  lemma CreateWorldRequiredItemsExist()
    ensures forall k :: k in CreateWorld() && CreateWorld()[k].obstacle.Some?
                        ==> CreateWorld()[k].obstacle.value.requiredItem in WorldItems(CreateWorld()) + {CellKey, IronKey}
  {
    var w := CreateWorld();
    assert Crowbar in w["Dungeon Cell"].items;
    assert "Rope" in w["Storage Room"].items;
    assert "Torch" in w["Kitchen"].items;
    assert Gem in w["Secret Passage"].items;
    assert {Crowbar, "Rope", "Torch", Gem} <= WorldItems(w);
  }
}

=== FILE: lists.dfy ===
/** The few Python list operations the game relies on: `x in s`,
    `s.remove(x)` (first occurrence only) and subscription `s[k]`, where a
    negative `k` counts from the end and anything else out of range is an
    `IndexError`. */
module Lists {
  import opened Wrappers

  /** Position of the first occurrence of `x` in `s`. */
  function FirstIndex<T(==)>(s: seq<T>, x: T): (i: nat)
    requires x in s
    ensures i < |s| && s[i] == x
    ensures forall j :: 0 <= j < i ==> s[j] != x
  {
    if s[0] == x then 0 else 1 + FirstIndex(s[1..], x)
  }

  /** `s.remove(x)` when `x` is present; `s` itself when it is not. */
  function RemoveFirst<T(==)>(s: seq<T>, x: T): (r: seq<T>)
    ensures x !in s ==> r == s
    ensures x in s ==> |r| == |s| - 1
    ensures multiset(r) == multiset(s) - multiset{x}
  {
    if |s| == 0 then s
    else if s[0] == x then
      assert s == [s[0]] + s[1..];
      s[1..]
    else
      assert s == [s[0]] + s[1..];
      [s[0]] + RemoveFirst(s[1..], x)
  }

  /** Removing `x` cuts exactly the first occurrence out of the list and keeps
      the order of everything else. */
  lemma {:induction false} RemoveFirstCutsFirstOccurrence<T>(s: seq<T>, x: T)
    requires x in s
    ensures RemoveFirst(s, x) == s[..FirstIndex(s, x)] + s[FirstIndex(s, x) + 1..]
  {
    if s[0] != x {
      RemoveFirstCutsFirstOccurrence(s[1..], x);
      ConsCut(s, FirstIndex(s[1..], x));
    }
  }

  /** Putting the head back in front of the tail with its `i`-th element cut
      out is the whole list with its `(i + 1)`-th element cut out. */
  lemma ConsCut<T>(s: seq<T>, i: nat)
    requires i + 1 < |s|
    ensures [s[0]] + (s[1..][..i] + s[1..][i + 1..]) == s[..i + 1] + s[i + 2..]
  {
    assert s[1..][..i] == s[1..i + 1];
    assert s[1..][i + 1..] == s[i + 2..];
    assert [s[0]] + s[1..i + 1] == s[..i + 1];
  }

  /** Python subscription `s[k]`: defined exactly for `-|s| <= k < |s|`,
      otherwise an `IndexError` (`None`). */
  function PyIndex<T>(s: seq<T>, k: int): (r: Option<T>)
    ensures r.Some? <==> -|s| <= k < |s|
    ensures r.Some? ==> r.value in s
  {
    if 0 <= k < |s| then Some(s[k])
    else if -|s| <= k < 0 then Some(s[|s| + k])
    else None
  }

  /** A negative subscription `-j` names the `j`-th element from the end:
      `s[-1]` is the last one. */
  lemma PyIndexFromEnd<T>(s: seq<T>, j: int)
    requires 1 <= j <= |s|
    ensures PyIndex(s, -j) == Some(s[|s| - j])
    ensures PyIndex(s, -j) == PyIndex(s, |s| - j)
  {
  }
}

=== FILE: loop.dfy ===
/** The game loop: one command per turn, dispatched to an action, followed by
    the victory check; the loop ends on `quit` or on reaching the exit. */
module Loop {
  import opened Wrappers
  import opened Players
  import opened Dungeon
  import opened Actions

  datatype Command = Look | Take | Move | Use | ShowInventory | Quit | Help | Unknown

  /** The words the loop accepts for each command; none for `Unknown`. */
  function Words(c: Command): set<string>
  {
    match c
    case Look => {"look"}
    case Take => {"take"}
    case Move => {"move"}
    case Use => {"use"}
    case ShowInventory => {"inventory", "i"}
    case Quit => {"quit", "q"}
    case Help => {"help", "h"}
    case Unknown => {}
  }

  /** The command an already lower-cased input line names: the one whose
      words include it, and `Unknown` when no command's words do. */
  function ParseCommand(word: string): (c: Command)
    ensures c != Unknown ==> word in Words(c)
    ensures c == Unknown <==> forall c' :: word !in Words(c')
  {
    if word == "look" then Look
    else if word == "take" then Take
    else if word == "move" then Move
    else if word == "use" then Use
    else if word == "inventory" || word == "i" then ShowInventory
    else if word == "quit" || word == "q" then Quit
    else if word == "help" || word == "h" then Help
    else Unknown
  }

  /** What the player types during one turn: the command, the answer to the
      first numbered menu, the y/n answer after a blocked move, and the answer
      to the inventory menu that a follow-up use may show. Answers a turn
      never asks for are ignored. */
  datatype Inputs = Inputs(command: string, choice: Reply, confirm: bool, followUp: Reply)

  datatype Status = Playing | Quitted | Escaped

  datatype TurnResult = TurnResult(game: Game, outcome: Outcome, status: Status)

  /** What holds between turns: the player stands in a room, the world's
      exits lead to rooms and have distinct labels, and the bag is within
      capacity. */
  ghost predicate Valid(g: Game)
  {
    && Located(g)
    && WellFormed(g.world)
    && WithinCapacity(g.player)
  }

  /** The state the game starts in. */
  function Initial(name: string): (g: Game)
    ensures g.world == CreateWorld()
    ensures g.player.name == name && g.player.location == StartRoom
    ensures g.player.inventory == [] && g.player.maxInventory == DefaultCapacity
  {
    Game(CreateWorld(), NewPlayer(name))
  }

  /** A new game satisfies the invariant: the player is in the cell with an
      empty bag of capacity four. */
  lemma InitialValid(name: string)
    ensures Valid(Initial(name))
    ensures Initial(name).player.location == StartRoom
    ensures Initial(name).player.inventory == [] && Initial(name).player.maxInventory == 4
  {
    CreateWorldIntegrity();
  }

  lemma LayoutKeepsWellFormed(w: World, w': World)
    requires WellFormed(w) && SameLayout(w, w')
    ensures WellFormed(w')
  {
  }

  /** The action a command runs. */
  function Dispatch(g: Game, inp: Inputs): (r: (Game, Outcome))
    requires Valid(g)
    ensures Valid(r.0)
    ensures SameLayout(g.world, r.0.world)
    ensures ParseCommand(inp.command) in {Quit, ShowInventory, Help, Unknown} ==> r.0 == g
    ensures ParseCommand(inp.command) == Unknown ==> r.1 == InvalidCommand
    ensures ParseCommand(inp.command) == Look ==> r == (HandleLook(g), Done)
    ensures ParseCommand(inp.command) == Take ==> r == HandleTake(g, inp.choice)
    ensures ParseCommand(inp.command) == Move ==> r == HandleMove(g, inp.choice, inp.confirm, inp.followUp)
    ensures ParseCommand(inp.command) == Use ==> r == HandleUse(g, None, inp.choice)
    ensures r.1 == InvalidCommand ==> ParseCommand(inp.command) in {Unknown, Move}
    ensures r.1 == InventoryFull ==> ParseCommand(inp.command) == Take
    ensures IsError(r.1) ==> r.0 == g
    ensures r.0.player.location != g.player.location ==>
              && ParseCommand(inp.command) == Move
              && exists e :: e in Here(g).exits && e.target == r.0.player.location
                             && !Blocks(Here(g).obstacle, e.direction)
  {
    var r := match ParseCommand(inp.command)
      case Look => (HandleLook(g), Done)
      case Take => HandleTake(g, inp.choice)
      case Move => HandleMove(g, inp.choice, inp.confirm, inp.followUp)
      case Use => HandleUse(g, None, inp.choice)
      case ShowInventory => (g, Done)
      case Quit => (g, Done)
      case Help => (g, Done)
      case Unknown => (g, InvalidCommand);
    LayoutKeepsWellFormed(g.world, r.0.world);
    r
  }

  /** One turn: `quit` stops before anything else; a raised error is reported
      and skips the victory check; otherwise the game is won exactly when the
      player now stands in the exit room. */
  function Turn(g: Game, inp: Inputs): (r: TurnResult)
    requires Valid(g)
    ensures Valid(r.game)
    ensures SameLayout(g.world, r.game.world)
    ensures r.status == Quitted <==> ParseCommand(inp.command) == Quit
    ensures r.status == Quitted ==> r.game == g
    ensures ParseCommand(inp.command) != Quit ==> (r.game, r.outcome) == Dispatch(g, inp)
    ensures r.status == Escaped <==>
              ParseCommand(inp.command) != Quit && !IsError(r.outcome) && r.game.player.location == ExitRoom
    ensures IsError(r.outcome) ==> r.game == g && r.status == Playing
    ensures r.game.player.location != g.player.location ==>
              exists e :: e in Here(g).exits && e.target == r.game.player.location
                          && !Blocks(Here(g).obstacle, e.direction)
  {
    if ParseCommand(inp.command) == Quit then TurnResult(g, Done, Quitted)
    else
      var (g', o) := Dispatch(g, inp);
      if IsError(o) then TurnResult(g', o, Playing)
      else if g'.player.location == ExitRoom then TurnResult(g', o, Escaped)
      else TurnResult(g', o, Playing)
  }

  /** Turns played from a script of inputs until the player quits, escapes,
      or the script runs out. */
  function Play(g: Game, script: seq<Inputs>): (r: (Game, Status))
    requires Valid(g)
    ensures Valid(r.0)
    ensures r.1 == Escaped ==> r.0.player.location == ExitRoom
    ensures SameLayout(g.world, r.0.world)
    ensures |script| == 0 ==> r == (g, Playing)
    ensures |script| == 1 ==> r == (Turn(g, script[0]).game, Turn(g, script[0]).status)
    ensures r.1 == Quitted ==> exists i :: 0 <= i < |script| && ParseCommand(script[i].command) == Quit
    decreases |script|
  {
    if |script| == 0 then (g, Playing)
    else
      var t := Turn(g, script[0]);
      if t.status == Playing then Play(t.game, script[1..]) else (t.game, t.status)
  }

  /** Playing one script and then another is playing their concatenation:
      the second script picks up from where the first left off while the game
      is still on, and is never reached once the first has quit or escaped. */
  lemma {:induction false} PlayAppend(g: Game, s: seq<Inputs>, s': seq<Inputs>)
    requires Valid(g)
    ensures Play(g, s).1 == Playing ==> Play(g, s + s') == Play(Play(g, s).0, s')
    ensures Play(g, s).1 != Playing ==> Play(g, s + s') == Play(g, s)
    decreases |s|
  {
    if |s| > 0 {
      assert (s + s')[0] == s[0];
      assert (s + s')[1..] == s[1..] + s';
      var t := Turn(g, s[0]);
      if t.status == Playing {
        PlayAppend(t.game, s[1..], s');
      }
    } else {
      assert s + s' == s';
    }
  }

  /** The locked cell door of the starting room. */
  const CellDoor := Obstacle(Locked, CellKey, "The cell door is locked!", Some("forward"))

  /** The player is still in the cell, the door still locked, and the only
      item anywhere within reach is the Crowbar. */
  ghost predicate Confined(g: Game)
  {
    && g.player.location == StartRoom
    && StartRoom in g.world
    && g.world[StartRoom].exits == [Exit("forward", "Corridor")]
    && g.world[StartRoom].obstacle == Some(CellDoor)
    && (forall x :: x in g.player.inventory ==> x == Crowbar)
    && (forall x :: x in g.world[StartRoom].items ==> x == Crowbar)
  }

  lemma InitialConfined(name: string)
    ensures Confined(Initial(name))
  {
  }

  lemma TakeKeepsConfined(g: Game, reply: Reply)
    requires Valid(g) && Confined(g)
    ensures Confined(HandleTake(g, reply).0)
  {
    var r := HandleTake(g, reply);
    if r.1 == Done {
      var item := Pick(Here(g).items, reply).value;
      assert item == Crowbar;
      var before := g.world[StartRoom].items;
      var after := r.0.world[StartRoom].items;
      assert multiset(after) == multiset(before) - multiset{item};
      forall x | x in after
        ensures x == Crowbar
      {
        assert x in multiset(after);
        assert multiset(after)[x] <= multiset(before)[x];
        assert x in before;
      }
      forall x | x in r.0.player.inventory
        ensures x == Crowbar
      {
        assert r.0.player.inventory == g.player.inventory + [item];
      }
    }
  }

  /** In the cell a use applies the Crowbar, which resolves nothing there, or
      asks for the Cell Key, which the player cannot hold. */
  lemma UseKeepsConfined(g: Game, hint: Option<string>, reply: Reply)
    requires Valid(g) && Confined(g)
    requires hint == None || hint == Some(CellKey)
    ensures Confined(HandleUse(g, hint, reply).0)
  {
  }

  /** Every exit of the cell is behind the locked door. */
  lemma MoveKeepsConfined(g: Game, reply: Reply, confirm: bool, followUp: Reply)
    requires Valid(g) && Confined(g)
    ensures Confined(HandleMove(g, reply, confirm, followUp).0)
  {
  }

  /** No turn lets a confined player out: the only exit is behind the door, the
      door wants the Cell Key, and the Crowbar opens nothing in the cell. */
  lemma TurnKeepsConfined(g: Game, inp: Inputs)
    requires Valid(g) && Confined(g)
    ensures Confined(Turn(g, inp).game)
    ensures Turn(g, inp).status != Escaped
  {
    match ParseCommand(inp.command)
    case Take => TakeKeepsConfined(g, inp.choice);
    case Move => MoveKeepsConfined(g, inp.choice, inp.confirm, inp.followUp);
    case Use => UseKeepsConfined(g, None, inp.choice);
    case _ =>
  }

  /** However many turns are played from a confined state, the player stays
      confined and never escapes. */
  lemma {:induction false} PlayKeepsConfined(g: Game, script: seq<Inputs>)
    requires Valid(g) && Confined(g)
    ensures Confined(Play(g, script).0)
    ensures Play(g, script).1 != Escaped
    decreases |script|
  {
    if |script| > 0 {
      TurnKeepsConfined(g, script[0]);
      var t := Turn(g, script[0]);
      if t.status == Playing {
        PlayKeepsConfined(t.game, script[1..]);
      }
    }
  }

  /** The game as built cannot be won: whatever the player types, they never
      get out of the Dungeon Cell. */
  lemma NeverLeavesTheCell(name: string, script: seq<Inputs>)
    ensures Valid(Initial(name))
    ensures Play(Initial(name), script).0.player.location == StartRoom
    ensures Play(Initial(name), script).1 != Escaped
  {
    var g := Initial(name);
    InitialValid(name);
    InitialConfined(name);
    PlayKeepsConfined(g, script);
    assert Confined(Play(g, script).0);
  }
}

=== FILE: players.dfy ===
/** The player: a name, the room they stand in and a bounded inventory. */
module Players {
  import opened Wrappers
  import Lists

  /** Capacity `Player` gets when none is given. */
  const DefaultCapacity: nat := 4
  /** Where every player starts. */
  const StartRoom := "Dungeon Cell"

  datatype Player = Player(
    name: string,
    location: string,
    inventory: seq<string>,
    maxInventory: nat)

  /** A fresh player: empty bag, default capacity, in the dungeon cell. */
  function NewPlayer(name: string): (r: Player)
    ensures r.name == name && r.location == StartRoom
    ensures r.maxInventory == DefaultCapacity
    ensures forall item :: !HasItem(r, item)
    ensures WithinCapacity(r)
  {
    Player(name, StartRoom, [], DefaultCapacity)
  }

  /** `has_item`: membership in the bag. */
  predicate HasItem(p: Player, item: string)
  {
    item in p.inventory
  }

  /** The inventory never holds more than the player's capacity. */
  predicate WithinCapacity(p: Player)
  {
    |p.inventory| <= p.maxInventory
  }

  /** Adding succeeds exactly when the bag is below capacity, and then puts
      the item at the end; `None` stands for `InventoryFullError`, after
      which the caller keeps the old player. */
  function AddItem(p: Player, item: string): (r: Option<Player>)
    ensures r.Some? <==> |p.inventory| < p.maxInventory
    ensures r.Some? ==> r.value.(inventory := p.inventory) == p
    ensures r.Some? ==> |r.value.inventory| == |p.inventory| + 1
    ensures r.Some? ==> r.value.inventory[..|p.inventory|] == p.inventory
    ensures r.Some? ==> r.value.inventory[|p.inventory|] == item
    ensures r.Some? ==> WithinCapacity(r.value) && HasItem(r.value, item)
  {
    if |p.inventory| < p.maxInventory then
      Some(p.(inventory := p.inventory + [item]))
    else
      None
  }

  /** Removing reports whether the item was there; if so exactly one
      occurrence, the first, is taken out; otherwise nothing changes. */
  function RemoveItem(p: Player, item: string): (r: (bool, Player))
    ensures r.0 <==> HasItem(p, item)
    ensures r.1.(inventory := p.inventory) == p
    ensures !r.0 ==> r.1 == p
    ensures r.0 ==> |r.1.inventory| == |p.inventory| - 1
    ensures r.0 ==> multiset(r.1.inventory) == multiset(p.inventory) - multiset{item}
    ensures r.0 ==> var i := Lists.FirstIndex(p.inventory, item);
                    r.1.inventory == p.inventory[..i] + p.inventory[i + 1..]
  {
    if item in p.inventory then
      Lists.RemoveFirstCutsFirstOccurrence(p.inventory, item);
      (true, p.(inventory := Lists.RemoveFirst(p.inventory, item)))
    else
      (false, p)
  }
}

=== FILE: scenarios.dfy ===
/** Whole turns in situations the world as built sets up: the Armory
    strongbox, the room-wide obstacles, and the cell door once a Cell Key is
    in hand. Each is stated for any valid state with the room in that shape,
    and the shape is checked against `CreateWorld`. */
module Scenarios {
  import opened Wrappers
  import opened Players
  import opened Dungeon
  import opened Actions
  import opened Loop

  const ArmoryChest := Obstacle(Chest, Crowbar, "The strongbox is jammed shut!", None)

  /** The Armory starts empty with the shut strongbox; the Treasury guard is a
      room-wide obstacle too. */
  lemma CreateWorldArmory()
    ensures CreateWorld()[ArmoryRoom].items == []
    ensures CreateWorld()[ArmoryRoom].obstacle == Some(ArmoryChest)
    ensures CreateWorld()[TreasuryRoom].obstacle.Some?
    ensures CreateWorld()[TreasuryRoom].obstacle.value.direction.None?
  {
  }

  /** Prying the strongbox with the second item of the bag: the keys are
      added after whatever lies in the Armory, the chest is gone, the Crowbar
      is used up and the Torch stays. */
  lemma StrongboxScenario(g: Game)
    requires Valid(g)
    requires g.player.location == ArmoryRoom && Here(g).obstacle == Some(ArmoryChest)
    requires g.player.inventory == ["Torch", Crowbar]
    ensures var t := Turn(g, Inputs("use", Number(2), false, NotANumber));
            && t.outcome == ChestOpened
            && t.game.world[ArmoryRoom].items == Here(g).items + [CellKey, IronKey]
            && t.game.world[ArmoryRoom].obstacle == None
            && t.game.player.inventory == ["Torch"]
            && t.status == Playing
  {
  }

  /** A room-wide obstacle, like the shut strongbox or the Treasury guard,
      blocks every exit of its room, the way back included; declining the
      follow-up use changes nothing. */
  lemma RoomWideObstacleBlocksEveryExit(g: Game, choice: int, confirm: bool)
    requires Valid(g)
    requires Here(g).obstacle.Some? && Here(g).obstacle.value.direction.None?
    requires 1 <= choice <= |Here(g).exits|
    ensures var t := Turn(g, Inputs("move", Number(choice), confirm, NotANumber));
            && t.outcome.Blocked?
            && t.game.player.location == g.player.location
            && (!confirm ==> t.game == g)
  {
  }

  /** Using the Cell Key on the cell door from a blocked move opens the door
      and uses up the key, but the player stays in the cell. */
  lemma CellDoorScenario(g: Game)
    requires Valid(g)
    requires g.player.location == StartRoom
    requires Here(g).exits == [Exit("forward", "Corridor")]
    requires Here(g).obstacle == Some(CellDoor)
    requires g.player.inventory == [CellKey]
    ensures var t := Turn(g, Inputs("move", Number(1), true, NotANumber));
            && t.outcome == Blocked(Some(Cleared))
            && t.game.player.location == StartRoom
            && t.game.player.inventory == []
            && t.game.world[StartRoom].exits == Here(g).exits
            && t.game.world[StartRoom].obstacle == None
  {
  }

  /** Once the door is open, the next move through it reaches the Corridor. */
  lemma OpenCellDoorScenario(g: Game)
    requires Valid(g)
    requires g.player.location == StartRoom
    requires Here(g).exits == [Exit("forward", "Corridor")]
    requires Here(g).obstacle == None
    ensures var t := Turn(g, Inputs("move", Number(1), false, NotANumber));
            && t.outcome == Done
            && t.game.player.location == "Corridor"
  {
  }
}

=== FILE: wrappers.dfy ===
/** The optional-value datatype used throughout the model: Python's `None`
    and the `IndexError`/`KeyError` "no answer" cases become `None`. */
module Wrappers {

  datatype Option<+T> = None | Some(value: T)
}
